=== FILE: README.md ===
# Sample-format and channel-order normalisation for qaac's input sources

This project is a Dafny model of the layer in qaac that sits between native
audio decoders and the conversion pipeline. It proves properties of the
model. It covers four parts:

- **The ALAC decode buffer** (`Alac`). This is the two-counter state machine
  (`nsamples`, `done`) that hands out a decoded packet piecemeal. The module
  also covers the ALAC source's `skipSamples`, `getChannelMap` and
  `getChapters`.
- **The libsndfile adapter.** `ChannelMap` models `convert_chanmap` and the
  translation of a whole map. `SndfileModule` models the all-or-nothing
  binding of the library's entry points. `SndfileSource` models what the
  `LibSndfileSource` constructor decides: the format name, the subformat
  table, the packed width, the reader, the channel map and the tag reader.
  It also models the error checks of `seekTo` and `getPosition`.
- **Core Audio channel layouts** (`ChannelLayout`). This covers the byte
  length of a layout, `create`, `CreateBasic`, `FromChannelMap` and
  `attach`.
- **The QuickTime property wrapper** (`PropertySupport`). This covers the
  status check, the vector-property read and `OpenDefault`.

Each C++ routine that can throw is modelled as a function returning
`Result<T>` (`Ok(value)` or `Err(error)`) or `Outcome` (`Pass` or
`Fail(error)`). There is one `Error` constructor for each distinct exception.

Calls into code outside the model become parameters. These are:

- the libsndfile calls (`sf_open_virtual`, `sf_command`, `sf_seek`);
- the dynamic loader;
- the tag readers;
- the QuickTime calls;
- the helper that picks a layout tag for a channel map.

Each such call is represented by what it returned.

Native integer widths are explicit where they matter:

- `DecodeBuffer`'s counters are 32-bit, and `done += n` wraps modulo 2^32.
- `ALACSource`'s position is a 64-bit unsigned counter, and a signed skip
  wraps modulo 2^64.
- libsndfile format words are `bv32`. The major type and the subtype are
  taken out with the library's masks (`0x0FFF0000` and `0x0000FFFF`).

Native enumerations are modelled as follows:

- libsndfile channel positions are a datatype. It has one constructor per
  position that `convert_chanmap` lists (libsndfile's values 1 to 22).
  `Unlisted(code)` covers every other value: 0, or anything above 22.
  `NativeCode` and `FromNativeCode` convert between the datatype and
  libsndfile's numbers.
- Subtype codes, Core Audio flags and layout tags carry the values of
  libsndfile and Core Audio. The proofs depend on these facts about them:
  - the subtypes in the table are distinct and non-zero;
  - the signed-integer flag is non-zero and shares no bit with the float
    flag, so the reader's bit test tells the two kinds apart;
  - a layout tag's low 16 bits hold its channel count.
- `offsetof(AudioChannelLayout, mChannelDescriptions)` is 12 bytes and
  `sizeof(AudioChannelDescription)` is 20 bytes. The proofs use only that
  both are positive.

Behaviours of the code that are modelled as written:

- `TOP_FRONT_CENTER` and `TOP_FRONT_RIGHT` both translate to label 15, and
  no position translates to 14 (libsndfilesrc.cpp:28-29).

- `advance(n)` (alacsrc.h:17-20) does not check `n ≤ rest()`. From a valid
  state, every `n` that overflows 32 bits moves `done` backwards to
  `done + n − 2^32` instead of draining the buffer (`Alac.Advance`;
  `Alac.AdvanceWrapsPast32Bits` shows one such input).
- The subformat table tags `SF_FORMAT_PCM_U8` as a signed integer
  (libsndfilesrc.cpp:127).
- Only the AIFF ID3 reader's failure is swallowed (libsndfilesrc.cpp:162-168).
  A failure of the CAF reader fails construction.

## Model

| member | source | states |
|---|---|---|
| `Alac.NewBuffer` | alacsrc.h:14 | A fresh decode buffer is drained (both counters 0), satisfies `done ≤ nsamples`, and has nothing left to deliver. |
| `Alac.Reset` | alacsrc.h:15 | From any state, `reset` drains the buffer: both counters are 0, the invariant holds, and `rest()` is 0. |
| `Alac.Rest` | alacsrc.h:16 | Under `done ≤ nsamples`, `rest()` plus `done` is exactly `nsamples`, so it never underflows. It is 0 exactly when everything decoded was delivered. |
| `Alac.Advance` | alacsrc.h:17-20 | From any state, `advance` leaves `done ≤ nsamples`; the buffer is either drained or still holds something. Without 32-bit overflow, a short advance adds exactly `n` to `done` and keeps `nsamples`. An advance that reaches or overshoots the packet drains it. With overflow, `done` wraps to `done + n − 2^32` and is compared again; from a valid state the buffer then survives with `done` moved backwards. Within `rest()`, `rest()` drops by exactly `n`. |
| `Alac.AdvanceWrapsPast32Bits` | alacsrc.h:17-19 | A concrete input on which the 32-bit `done += n` wraps. From (10, 5), advancing by 2^32−1 leaves (10, 4) instead of draining. |
| `Alac.DrainInPieces` | alacsrc.h:16-20 | Delivering the rest of a packet in positive pieces that add up to `rest()` drains the buffer at the last piece and not before. No sample is delivered twice, and no refill happens early. |
| `Alac.SkipSamples` | alacsrc.h:35 | `skipSamples` moves only the position, by `count` modulo 2^64, and exactly by `count` when no wrap occurs. The decode buffer, track and tags are unchanged. |
| `Alac.SkipSamplesUndo` | alacsrc.h:35 | Skipping `count` and then `-count` gives back the original source, even when the 64-bit position wrapped in between. (`-count` must itself be a 64-bit value.) |
| `Alac.GetChannelMap` | alacsrc.h:33 | The ALAC source never reports a channel map. |
| `Alac.GetChapters` | alacsrc.h:37-38 | The ALAC source never reports chapters. |
| `ChannelMap.NativeCode` | libsndfilesrc.cpp:9-35 | A position is unlisted exactly when its libsndfile value is 0 or above 22. A listed position sits at its value's place in libsndfile's enumeration. |
| `ChannelMap.NativeCodeRoundTrip` | libsndfilesrc.cpp:9-35 | Reading a libsndfile value into a position and writing it back are inverse in both directions. The datatype therefore stands for every `uint32` the library may write, no more and no fewer. |
| `ChannelMap.ConvertChanmap` | libsndfilesrc.cpp:6-36 | The translation succeeds exactly on the listed positions. Each result is a label in 1..18 other than 14. Any other code throws "unknown channel" carrying the code, with no default. |
| `ChannelMap.PositionOfRoundTrip` | libsndfilesrc.cpp:10-32 | Every label in 1..18 except 14 is produced by its canonical position, which `Canonical` maps to itself. |
| `ChannelMap.ConvertChanmapRoundTrip` | libsndfilesrc.cpp:10-32 | Translating a listed position and mapping the label back gives the position's canonical representative. The representative translates the same way. |
| `ChannelMap.ConvertChanmapMergesOnlyCanonical` | libsndfilesrc.cpp:10-32 | Two listed positions share a label exactly when they are merged. The merges are LEFT with FRONT_LEFT, RIGHT with FRONT_RIGHT, MONO with CENTER and FRONT_CENTER, and TOP_FRONT_CENTER with TOP_FRONT_RIGHT. |
| `ChannelMap.ConvertChanmapImage` | libsndfilesrc.cpp:18-32 | A label is produced by some position exactly when it is in 1..18 and is not 14. |
| `ChannelMap.ConvertChannelMap` | libsndfilesrc.cpp:159-161 | A whole map translates exactly when every position is listed. The result has the same length, and entry `i` is the translation of native entry `i`. Otherwise it fails with the first unlisted code. |
| `SndfileModule.Resolve` | libsndfilesrc.cpp:46-59 | Lookups run in order and stop at the first null. The table exists exactly when every lookup is non-null, and then it holds each name's address. On failure, the lookups made form a prefix of the list that ends at the null one. |
| `SndfileModule.Bind` | libsndfilesrc.cpp:41-60 | A library that did not load is not searched and stays unloaded. A loaded library ends up loaded exactly when every entry point resolves. "Loaded" implies every entry point is present, non-null and the library's. Otherwise the binding is reset after the first null lookup. |
| `SndfileSource.ScanFrom` | libsndfilesrc.cpp:136-139 | The sentinel-terminated scan from row `p` returns a supported row with the searched subtype. It fails with "unsupported subformat" exactly when no row from `p` on matches. |
| `SndfileSource.LookupSubformat` | libsndfilesrc.cpp:117-139 | The subformat lookup finds a supported row with the requested subtype. It throws exactly when no supported row has it, and a subtype of 0 hits the sentinel. |
| `SndfileSource.MappingShape` | libsndfilesrc.cpp:122-135 | The table ends in the all-zero sentinel. Only the sentinel has subtype 0, and no subtype is listed twice, so the first match is the only one. |
| `SndfileSource.PackBitsCoversNativeBits` | libsndfilesrc.cpp:140-142 | For every row, `bits ≤ pack_bits` holds. Integer kinds pack to 32 bits, and float kinds keep their width (32 or 64). |
| `SndfileSource.UnsignedEightBitIsTaggedSigned` | libsndfilesrc.cpp:127 | 8-bit unsigned PCM is looked up as an 8-bit signed-integer row. |
| `SndfileSource.ChooseReadEntry` | libsndfilesrc.cpp:148-153 | The reader is `readf_int` exactly when the signed-integer flag is set. Otherwise it is `readf_float` exactly when the packed width is 32, and `readf_double` in every remaining case. |
| `SndfileSource.ReaderMatchesPacking` | libsndfilesrc.cpp:140-153 | For every table row, the chosen reader writes samples exactly as wide as the packed width, and it is the integer reader exactly for integer rows. |
| `SndfileSource.FirstMajorFrom` | libsndfilesrc.cpp:109-116 | The major-format search returns the first index from `i` whose format equals the container's major type. If none matches, it returns the count. |
| `SndfileSource.FormatName` | libsndfilesrc.cpp:106-116 | The format name is the extension of the first matching major format. It stays empty when none matches. |
| `SndfileSource.TagRoutineFor` | libsndfilesrc.cpp:162-168 | Only "aiff" selects the ID3 reader, and only "caf" selects the CAF reader. Any other name selects none. |
| `SndfileSource.FetchTags` | libsndfilesrc.cpp:162-168 | Fetching tags fails exactly when the CAF reader runs and throws, and the failure is the CAF reader's exception. An ID3 failure gives empty tags, and so does running no reader. |
| `SndfileSource.DescribeFormat` | libsndfilesrc.cpp:140-146 | The descriptor keeps the rate, the channel count, the native bits and the kind. Its packed width is at least the native bits: 32 for integers and the native width for floats. The reader chosen for it matches the packed width. |
| `SndfileSource.ReadChannelMap` | libsndfilesrc.cpp:155-161 | When the map query gives `SF_FALSE`, the channel map is empty. Otherwise it is the in-order translation of the native map, and can fail only with an unknown channel. |
| `SndfileSource.Assemble` | libsndfilesrc.cpp:144-153 | The constructed state has a descriptor derived from a matching table row, with `bits ≤ pack_bits`. Its reader matches the packed width and is the module's non-null entry point for that reader. |
| `SndfileSource.Open` | libsndfilesrc.cpp:92-169 | The constructor fails in source order: open failure, then unsupported subformat, then unknown channel, then the CAF reader's exception, which only a "caf" container can raise. When only the CAF reader fails, its exception is the one thrown. It returns exactly when the open, the subformat lookup and the map translation succeed and, for "caf", the CAF reader succeeds; an ID3 failure never stops it. On success it keeps the frame count, and its format name is the first matching major's extension. The descriptor comes from the matching table row. The reader and its entry point are fixed once. The map is empty, or has `channels` entries translated in order. Tags come only from the reader the name selects. |
| `SndfileSource.SixteenBitPcmReadsIntegers` | libsndfilesrc.cpp:122-153 | A 16-bit signed PCM stream opens with `readf_int`, 16 native bits packed into 32, and the signed-integer flag. |
| `SndfileSource.UnlistedMajorFormatFetchesNoTags` | libsndfilesrc.cpp:106-168 | A container whose major type matches no listed major format gets an empty name and no tags. Whether it opens then depends only on the subformat and the channel map. |
| `SndfileSource.SeekTo` | libsndfilesrc.cpp:171-175 | `seekTo` throws "sf_seek() failed" exactly when the backend seek returns −1. |
| `SndfileSource.GetPosition` | libsndfilesrc.cpp:177-183 | `getPosition` throws exactly when the backend seek returns −1. Otherwise it returns the backend's position. |
| `SndfileSource.SeekThenPositionRoundTrip` | libsndfilesrc.cpp:171-183 | Against an idealised stream, `sf_seek` with `SEEK_SET` is modelled by `SeekSet` and with `SEEK_CUR` by `SeekCur`. `seekTo(p)` for a frame `p` of the stream succeeds, and the following `getPosition()` returns `p`. For a target outside the stream, `seekTo` throws and a later `getPosition()` answers as it did before the seek. |
| `SndfileSource.OpenIgnoresUnselectedReader` | libsndfilesrc.cpp:162-168 | For every module and backend, what the CAF reader would produce changes nothing unless the name is "caf". What the ID3 reader would produce changes nothing unless the name is "aiff". When the open itself fails, neither reader matters. |
| `ChannelLayout.Length` | qthelper.h:22-27 | A layout's byte length is the header plus one description size per announced description. The count can be read back from the length. |
| `ChannelLayout.LengthDeterminesCount` | qthelper.h:22-27 | Two layouts have the same length exactly when they announce the same number of descriptions. |
| `ChannelLayout.Create` | qthelper.h:77-85 | `create(n)` sets the description count to `n`, holds exactly `n` descriptions, zero-fills every field, and allocates exactly what `size()` later reports. |
| `ChannelLayout.CreateBasic` | qthelper.h:51-67 | For 1 to 8 channels, `CreateBasic` gives a layout with no descriptions, allocated at header size, with the zero bitmap and no description slots, as `create(0)` leaves them. Its tag is one of the table's standard tags and announces exactly `n` channels. |
| `ChannelLayout.CreateBasicInjective` | qthelper.h:51-67 | Different channel counts give different layouts and tags, so the synthesised layout determines the count. |
| `ChannelLayout.FromChannelMap` | qthelper.h:68-75 | The layout has one description per map entry. The label of description `i` is map entry `i`, so order and length are kept. The flags and the bitmap are zero, the tag is the one chosen for the map, and the allocation equals `size()`. |
| `ChannelLayout.Attach` | qthelper.h:86-94 | `attach` allocates and copies exactly the source's length. The copy has the same tag, bitmap, count and announced descriptions, and holds no more. |
| `ChannelLayout.AttachRoundTrip` | qthelper.h:86-94 | Copying a copy changes nothing. Copying a layout whose memory holds exactly its descriptions gives it back unchanged. |
| `PropertySupport.Check` | qthelper.h:100-107 | `_check` throws exactly when the status is non-zero. The exception carries the status, the call and the property. |
| `PropertySupport.OpenDefault` | qthelper.h:212-226 | `OpenDefault` throws exactly when `OpenADefaultComponent` returns non-zero. Otherwise it wraps the instance it was given. |
| `PropertySupport.GetVectorProperty` | qthelper.h:173-180 | The vector has `size / sizeof(T)` elements (floor division). The data is fetched exactly when the size is non-zero. Errors from the size query and from the fetch propagate. |
| `PropertySupport.GetVectorPropertyOverrunsBuffer` | qthelper.h:177-178 | With 4-byte elements, a reported size of 6 gives a one-element vector that is told it can take 6 bytes. A size of 2 gives an empty vector that is still written. |
| `PropertySupport.GetVectorPropertyBounded` | qthelper.h:173-180 | The corrected read has the same element count. A failing size query and a failing fetch of a non-empty vector raise the same errors as the read as written. It fetches only into a non-empty vector and never declares more bytes than the vector holds. |
| `PropertySupport.BoundedAgreesOnWholeElements` | qthelper.h:173-180 | When the reported size is a whole number of elements, the corrected read and the read as written agree. |

## Findings

| source | as written | input that shows it | evidently intended | confidence | as-written member | corrected member |
|---|---|---|---|---|---|---|
| qthelper.h:177-178 | The vector has `size / sizeof(T)` elements, but `getProperty` is told it may write `size` bytes into it. It is also called with `&buffer[0]` when the vector is empty but `size` is non-zero. | `sizeof(T) == 4` with a reported size of 6: one element (4 bytes), told 6 bytes. With a reported size of 2: no elements, yet a fetch is made. | The fetch is told the vector's own size in bytes and happens only into a non-empty vector. | low: whether QuickTime ever reports such sizes is outside the model; not executed | `PropertySupport.GetVectorProperty`, `PropertySupport.GetVectorPropertyOverrunsBuffer` | `PropertySupport.GetVectorPropertyBounded`, `PropertySupport.BoundedAgreesOnWholeElements` |

## Left out

- `Alac.Advance`: the promise that an advance reaching or passing the packet size drains the buffer holds only while `done + n` fits in 32 bits. Beyond that the C++ addition wraps. The contract states the wrapped result for every such `n`, and it is not a drain.
- `ALACSource`'s constructor, `readSamples`, `fetchTags`, `getTags` and `length`, and the decode buffer's byte storage: their bodies are not part of this model.
- `QTInitializer`, and the QuickTime calls behind `ComponentX`: these are foreign calls, seen only through the status codes they return. `getPropertyInfo`, `getProperty`, `setProperty`, and the POD and pointer property helpers reduce to `PropertySupport.Check` of such a status.
- `ComponentX::attach` and the `ComponentX` constructors: they only take ownership of an instance, to be released with `CloseComponent`. They check no status, and ownership is not modelled.
- `SFVirtualIOImpl`: file-descriptor plumbing (size, seek, read, tell) with no decision logic.
- The ID3 and CAF tag readers and `cautil::buildASBDForPCM2`: these are external routines. The tag readers are represented by the tags or failure they would produce. The descriptor is an abstract record of rate, channels, bits, packed width and flags, which is assumed to keep the row's flags.
- `SndfileSource.FetchTags`: tags the ID3 reader may have stored before throwing are not modelled. After a swallowed failure the tags are taken as empty. What the CAF reader threw is modelled as the single `TagFetchFailed`, not by its text.
- `SndfileSource.Open`: the library is taken to fill the channel-map buffer with exactly `channels` entries. Writing through `&m_chanmap[0]` for a zero channel count is not modelled. The text of the `sf_strerror` message is not modelled.
- `SndfileSource.Open`: the model requires a loaded module with every entry point bound. The C++ constructor does not check `loaded()`: on an inert module it calls a null `open_virtual` (libsndfilesrc.cpp:100), which is undefined behaviour and is not modelled.
- `SndfileModule.Bind`: a binding that is reset after a partial lookup keeps, in C++, the addresses fetched so far. The inert module carries none, because nothing may use them.
- `ChannelLayout.Create`: the description count is unbounded. The C++ 32-bit field and `ByteCount` arithmetic would wrap only for counts beyond 2^32 / 20, which no channel layout reaches.
- `ChannelLayout.FromChannelMap`: the tag comes from `GetChannelLayoutTagFromChannelMap` (chanmap.h), which is not part of this model. It is passed in as a parameter.
- Channel-description coordinates (floats), `shared_ptr` deleters, `memcpy`/`xmalloc`/`xcalloc` byte layout and allocation failure: memory is modelled by byte counts only.
- wvpacksrc.h and qtmoviesource.h: they declare classes whose logic lives in files that are not part of this model.
- `ChannelLayout.CreateBasic`: a count of 0 passes the source's upper-bound assertion but then reads `tab[nchannel - 1]` with an unsigned index that wraps around to the largest value. That is undefined behaviour, so the model requires a count from 1 to 8.

=== FILE: alac.dfy ===
/**
 The block-decoder adapter for ALAC in MP4 (alacsrc.h). The ALAC decoder
 produces a whole packet of samples at a time; the adapter keeps the
 packet in a decode buffer and hands it out to the caller piecemeal. The
 buffer is a pair of 32-bit counters: how many samples the last packet
 held and how many of them have been delivered.
 */
module Alac {
  import opened Base

  /** `ALACSource::DecodeBuffer` without its byte storage. */
  datatype DecodeBuffer = DecodeBuffer(nsamples: uint32, done: uint32) {

    /** The invariant of the buffer: never more delivered than decoded. */
    predicate Valid() {
      done <= nsamples
    }

    /** Logically empty, ready for the next packet. */
    predicate Drained() {
      nsamples == 0 && done == 0
    }
  }

  /** The default constructor. */
  function NewBuffer(): (b: DecodeBuffer)
    ensures b.Valid() && b.Drained()
    ensures Rest(b) == 0
  {
    DecodeBuffer(0, 0)
  }

  /** `reset()`: both counters to zero, whatever the prior state. */
  function Reset(b: DecodeBuffer): (r: DecodeBuffer)
    ensures r.Valid() && r.Drained()
    ensures Rest(r) == 0
  {
    DecodeBuffer(0, 0)
  }

  /** `rest()`: samples decoded but not yet delivered. The subtraction is
      on `uint32_t`; under the invariant it never wraps. */
  function Rest(b: DecodeBuffer): (r: uint32)
    ensures b.Valid() ==> b.done + r == b.nsamples
    ensures b.Valid() ==> (r == 0 <==> b.done == b.nsamples)
  {
    (b.nsamples - b.done) % TWO_32
  }

  /** `advance(n)`: deliver `n` more samples. `done += n` is a 32-bit
      addition; once `done` reaches the packet size both counters collapse
      to zero. */
  function Advance(b: DecodeBuffer, n: uint32): (r: DecodeBuffer)
    // the invariant holds afterwards from any state, and the buffer is
    // either drained or still holds something to deliver
    ensures r.Valid()
    ensures r.Drained() || r.done < r.nsamples
    ensures r.Drained() || r.nsamples == b.nsamples
    // without 32-bit overflow: exactly n more delivered, or collapse
    ensures b.done + n < TWO_32 && b.done + n < b.nsamples ==>
              r.nsamples == b.nsamples && r.done == b.done + n
    ensures b.done + n < TWO_32 && b.done + n >= b.nsamples ==> r.Drained()
    // with 32-bit overflow: done wraps to done + n - 2^32 and is compared
    // again; from a valid state that lands below done, so the buffer
    // survives with done moved backwards instead of draining
    ensures b.done + n >= TWO_32 && b.done + n - TWO_32 < b.nsamples ==>
              r == DecodeBuffer(b.nsamples, b.done + n - TWO_32)
    ensures b.done + n >= TWO_32 && b.done + n - TWO_32 >= b.nsamples ==> r.Drained()
    ensures b.Valid() && b.done + n >= TWO_32 ==> r == DecodeBuffer(b.nsamples, b.done + n - TWO_32)
    // the read discipline (n at most rest()) never overflows
    ensures b.Valid() && n <= Rest(b) ==>
              Rest(r) == if n == Rest(b) then 0 else Rest(b) - n
  {
    var d := (b.done + n) % TWO_32;
    if d >= b.nsamples then DecodeBuffer(0, 0) else DecodeBuffer(b.nsamples, d)
  }

  /** The C++ addition wraps: a huge `n` can move `done` backwards instead of
      collapsing the buffer. The read discipline never asks for this. */
  lemma AdvanceWrapsPast32Bits()
    ensures Advance(DecodeBuffer(10, 5), TWO_32 - 1) == DecodeBuffer(10, 4)
  {
  }

  /** Total of a sequence of delivery sizes. */
  function Total(chunks: seq<uint32>): nat
  {
    if |chunks| == 0 then 0 else chunks[0] + Total(chunks[1..])
  }

  /** The buffer after delivering each chunk in turn. */
  function AdvanceAll(b: DecodeBuffer, chunks: seq<uint32>): DecodeBuffer
    decreases |chunks|
  {
    if |chunks| == 0 then b else AdvanceAll(Advance(b, chunks[0]), chunks[1..])
  }

  /** Delivering a packet in positive pieces that add up to what is left
      drains the buffer exactly at the last piece, and not before: no
      sample is handed out twice and no refill happens early. */
  lemma {:induction false} DrainInPieces(b: DecodeBuffer, chunks: seq<uint32>)
    requires b.Valid()
    requires |chunks| > 0
    requires forall i :: 0 <= i < |chunks| ==> chunks[i] > 0
    requires Total(chunks) == Rest(b)
    ensures AdvanceAll(b, chunks).Drained()
    ensures forall k :: 0 < k < |chunks| ==> !AdvanceAll(b, chunks[..k]).Drained()
    decreases |chunks|
  {
    var c := chunks[0];
    var b' := Advance(b, c);
    if |chunks| == 1 {
      assert Total(chunks[1..]) == 0;
      assert AdvanceAll(b', chunks[1..]) == b';
    } else {
      var tail := chunks[1..];
      assert Total(tail) > 0 by { assert tail[0] == chunks[1]; }
      assert Rest(b') == Rest(b) - c;
      DrainInPieces(b', tail);
      forall k | 0 < k < |chunks|
        ensures !AdvanceAll(b, chunks[..k]).Drained()
      {
        assert chunks[..k][0] == c;
        assert chunks[..k][1..] == tail[..k-1];
        if k == 1 {
          assert AdvanceAll(b', tail[..0]) == b';
        }
      }
    }
  }

  /** The position and the decode state of `ALACSource` that the modelled
      members touch. */
  datatype AlacSource = AlacSource(
    trackId: uint32,
    position: uint64,
    buffer: DecodeBuffer,
    tags: map<uint32, string>)

  /** `skipSamples(count)`: `m_position += count` on a 64-bit unsigned
      counter. Only the position moves; the decoder and its buffer are not
      told to discard anything. */
  function SkipSamples(s: AlacSource, count: int64): (r: AlacSource)
    ensures r.buffer == s.buffer && r.trackId == s.trackId && r.tags == s.tags
    ensures (r.position - s.position - count) % TWO_64 == 0
    ensures 0 <= s.position + count < TWO_64 ==> r.position == s.position + count
  {
    s.(position := (s.position + count) % TWO_64)
  }

  /** A skip is undone by the opposite skip: the 64-bit position comes back
      to where it was, whatever wrap-around happened in between. */
  lemma SkipSamplesUndo(s: AlacSource, count: int64)
    requires count > -(TWO_64 / 2)
    ensures SkipSamples(SkipSamples(s, count), (-(count as int)) as int64) == s
  {
    var mid := (s.position + count) % TWO_64;
    assert s.position < TWO_64;
    if s.position + count < 0 {
      assert mid == s.position + count + TWO_64;
    } else if s.position + count >= TWO_64 {
      assert mid == s.position + count - TWO_64;
    }
    assert (mid - count) % TWO_64 == s.position;
  }

  /** `getChannelMap()`: the ALAC source never reports a channel map. */
  function GetChannelMap(s: AlacSource): (r: Option<seq<uint32>>)
    ensures r.None?
  {
    None
  }

  /** `getChapters()`: the ALAC source never reports chapters. */
  function GetChapters(s: AlacSource): (r: Option<seq<(string, int64)>>)
    ensures r.None?
  {
    None
  }
}

=== FILE: base.dfy ===
/**
 Shared vocabulary of the adapter layer: the fixed-width integers of the
 native APIs, the failures the adapters raise, and the value-or-failure
 datatypes that stand for C++ routines which either return or throw.
 */
module Base {

  const TWO_32: int := 0x1_0000_0000
  const TWO_64: int := 0x1_0000_0000_0000_0000

  type uint32 = x: int | 0 <= x < 0x1_0000_0000
  type uint64 = x: int | 0 <= x < 0x1_0000_0000_0000_0000
  type int64 = x: int | -0x8000_0000_0000_0000 <= x < 0x8000_0000_0000_0000

  /** A fourcc code as Core Audio and QuickTime use it (`OSType`). */
  type OSType = uint32

  /** The failures the adapters throw, one per distinct `runtime_error`. */
  datatype Error =
    | OpenFailed                                  // sf_open_virtual returned null
    | UnknownChannel(code: uint32)                // "Unknown channel: %u"
    | UnsupportedSubformat                        // "Unsupported input subformat"
    | TagFetchFailed                              // the CAF tag reader threw
    | SeekFailed                                  // "sf_seek() failed"
    | PropertyFailed(err: int, call: string, klass: OSType, id: OSType)
    | ComponentOpenFailed(err: int, componentType: OSType, componentSubType: OSType)

  datatype Option<+T> = None | Some(value: T)

  /** A routine that either returns `value` or throws `error`. */
  datatype Result<+T> = Ok(value: T) | Err(error: Error)

  /** A routine returning nothing that may throw. */
  datatype Outcome = Pass | Fail(error: Error)
}

=== FILE: chanmap.dfy ===
/**
 Translation of libsndfile channel positions into Core Audio channel
 labels (`convert_chanmap` in libsndfilesrc.cpp). Core Audio labels are
 small integers: 1 left, 2 right, 3 center, 4 LFE, 5/6 rear left/right,
 7/8 left/right of center, 9 rear center, 10/11 side left/right,
 12 top center, 13/14/15 top front left/center/right, 16/17/18 top rear
 left/center/right.
 */
module ChannelMap {
  import opened Base

  /** A value of libsndfile's channel-position enumeration that the
      translator does not list: 0 (`SF_CHANNEL_MAP_INVALID`), or anything
      after `SF_CHANNEL_MAP_TOP_REAR_CENTER` (22), such as the ambisonic
      positions. */
  type UnlistedCode = c: uint32 | c == 0 || c > 22

  /** The channel positions libsndfile can report. Every position the
      translator lists (libsndfile's values 1 to 22) has its own
      constructor; `Unlisted` carries any other value. */
  datatype NativeChannel =
    | Mono
    | Left | Right | Center
    | FrontLeft | FrontRight | FrontCenter
    | RearCenter | RearLeft | RearRight
    | Lfe
    | FrontLeftOfCenter | FrontRightOfCenter
    | SideLeft | SideRight
    | TopCenter
    | TopFrontLeft | TopFrontRight | TopFrontCenter
    | TopRearLeft | TopRearRight | TopRearCenter
    | Unlisted(code: UnlistedCode)

  /** The listed positions in the order of libsndfile's enumeration, so that
      position `v` is `Listed[v - 1]`. */
  const Listed: seq<NativeChannel> := [
    Mono, Left, Right, Center, FrontLeft, FrontRight, FrontCenter,
    RearCenter, RearLeft, RearRight, Lfe, FrontLeftOfCenter, FrontRightOfCenter,
    SideLeft, SideRight, TopCenter, TopFrontLeft, TopFrontRight, TopFrontCenter,
    TopRearLeft, TopRearRight, TopRearCenter
  ]

  /** The value libsndfile writes for a position. */
  function NativeCode(c: NativeChannel): (v: uint32)
    ensures c.Unlisted? <==> v == 0 || v > 22
    ensures !c.Unlisted? ==> Listed[v - 1] == c
  {
    match c
    case Mono => 1
    case Left => 2
    case Right => 3
    case Center => 4
    case FrontLeft => 5
    case FrontRight => 6
    case FrontCenter => 7
    case RearCenter => 8
    case RearLeft => 9
    case RearRight => 10
    case Lfe => 11
    case FrontLeftOfCenter => 12
    case FrontRightOfCenter => 13
    case SideLeft => 14
    case SideRight => 15
    case TopCenter => 16
    case TopFrontLeft => 17
    case TopFrontRight => 18
    case TopFrontCenter => 19
    case TopRearLeft => 20
    case TopRearRight => 21
    case TopRearCenter => 22
    case Unlisted(code) => code
  }

  /** The position a value written by libsndfile stands for. */
  function FromNativeCode(v: uint32): (c: NativeChannel)
    ensures c.Unlisted? <==> v == 0 || v > 22
  {
    if 1 <= v <= 22 then Listed[v - 1] else Unlisted(v)
  }

  /** Reading a value and writing it back are inverse, in both directions,
      so the datatype is a faithful picture of libsndfile's value space. */
  lemma NativeCodeRoundTrip(c: NativeChannel, v: uint32)
    ensures FromNativeCode(NativeCode(c)) == c
    ensures NativeCode(FromNativeCode(v)) == v
  {
    if 1 <= v <= 22 {
      assert NativeCode(Listed[v - 1]) == v;
    }
  }

  /** `convert_chanmap`: total on the listed positions, throws on any other. */
  function ConvertChanmap(c: NativeChannel): (r: Result<uint32>)
    ensures r.Ok? <==> !c.Unlisted?
    ensures r.Ok? ==> 1 <= r.value <= 18 && r.value != 14
    ensures c.Unlisted? ==> r == Err(UnknownChannel(c.code))
  {
    match c
    case Mono => Ok(3)
    case Left | FrontLeft => Ok(1)
    case Right | FrontRight => Ok(2)
    case Center | FrontCenter => Ok(3)
    case Lfe => Ok(4)
    case RearLeft => Ok(5)
    case RearRight => Ok(6)
    case FrontLeftOfCenter => Ok(7)
    case FrontRightOfCenter => Ok(8)
    case RearCenter => Ok(9)
    case SideLeft => Ok(10)
    case SideRight => Ok(11)
    case TopCenter => Ok(12)
    case TopFrontLeft => Ok(13)
    case TopFrontCenter => Ok(15)
    case TopFrontRight => Ok(15)
    case TopRearLeft => Ok(16)
    case TopRearCenter => Ok(17)
    case TopRearRight => Ok(18)
    case Unlisted(code) => Err(UnknownChannel(code))
  }

  /** The position each listed position is merged with: the front-prefixed
      names of left, right and center fall onto the plain ones, mono falls
      onto center, and (as written) top-front-center falls onto
      top-front-right. Every other listed position stands for itself. */
  function Canonical(c: NativeChannel): (r: NativeChannel)
    requires !c.Unlisted?
    ensures !r.Unlisted?
  {
    match c
    case FrontLeft => Left
    case FrontRight => Right
    case Mono | FrontCenter => Center
    case TopFrontCenter => TopFrontRight
    case _ => c
  }

  /** The canonical position a label comes from; the inverse of the
      translator on canonical positions. */
  function PositionOf(l: uint32): (c: NativeChannel)
    requires 1 <= l <= 18 && l != 14
    ensures !c.Unlisted?
  {
    if l == 1 then Left else if l == 2 then Right else if l == 3 then Center
    else if l == 4 then Lfe else if l == 5 then RearLeft else if l == 6 then RearRight
    else if l == 7 then FrontLeftOfCenter else if l == 8 then FrontRightOfCenter
    else if l == 9 then RearCenter else if l == 10 then SideLeft
    else if l == 11 then SideRight else if l == 12 then TopCenter
    else if l == 13 then TopFrontLeft else if l == 15 then TopFrontRight
    else if l == 16 then TopRearLeft else if l == 17 then TopRearCenter
    else TopRearRight
  }

  /** Round trip from labels: every label but 14 is produced, by its
      canonical position. */
  lemma PositionOfRoundTrip(l: uint32)
    requires 1 <= l <= 18 && l != 14
    ensures ConvertChanmap(PositionOf(l)) == Ok(l)
    ensures Canonical(PositionOf(l)) == PositionOf(l)
  {
  }

  /** Round trip from positions: translating and going back lands on the
      canonical position, which translates the same way. */
  lemma ConvertChanmapRoundTrip(c: NativeChannel)
    requires !c.Unlisted?
    ensures PositionOf(ConvertChanmap(c).value) == Canonical(c)
    ensures ConvertChanmap(Canonical(c)) == ConvertChanmap(c)
  {
  }

  /** Two listed positions get the same label exactly when they are merged
      onto the same canonical position. */
  lemma ConvertChanmapMergesOnlyCanonical(a: NativeChannel, b: NativeChannel)
    requires !a.Unlisted? && !b.Unlisted?
    ensures ConvertChanmap(a) == ConvertChanmap(b) <==> Canonical(a) == Canonical(b)
  {
    ConvertChanmapRoundTrip(a);
    ConvertChanmapRoundTrip(b);
  }

  /** Every label from 1 to 18 but 14 (top front center) is produced by some
      position; 14 is produced by none. */
  lemma ConvertChanmapImage(l: uint32)
    ensures (exists c :: ConvertChanmap(c) == Ok(l)) <==> 1 <= l <= 18 && l != 14
  {
    if 1 <= l <= 18 && l != 14 {
      PositionOfRoundTrip(l);
    }
  }

  /** `std::transform(..., convert_chanmap)`: translate a whole map in
      order, stopping at the first position the translator rejects. */
  function ConvertChannelMap(codes: seq<NativeChannel>): (r: Result<seq<uint32>>)
    ensures r.Ok? <==> forall i :: 0 <= i < |codes| ==> !codes[i].Unlisted?
    ensures r.Ok? ==> |r.value| == |codes|
    ensures r.Err? ==> r.error.UnknownChannel?
    ensures r.Ok? ==> forall i :: 0 <= i < |codes| ==> ConvertChanmap(codes[i]) == Ok(r.value[i])
    ensures forall k ::
              (0 <= k < |codes| && codes[k].Unlisted? && forall j :: 0 <= j < k ==> !codes[j].Unlisted?)
              ==> r == Err(UnknownChannel(codes[k].code))
    decreases |codes|
  {
    if |codes| == 0 then Ok([])
    else
      match ConvertChanmap(codes[0])
      case Err(e) => Err(e)
      case Ok(l) =>
        match ConvertChannelMap(codes[1..])
        case Err(e) => Err(e)
        case Ok(tail) => Ok([l] + tail)
  }
}

=== FILE: channel_layout.dfy ===
/**
 Core Audio channel layouts as the QuickTime helper builds them
 (`AudioChannelLayout_length` and `AudioChannelLayoutX` in qthelper.h).
 A layout is a variable-length record: a fixed header (tag, bitmap,
 description count) followed by one description per channel. Memory is
 modelled by byte counts only.
 */
module ChannelLayout {
  import opened Base

  /** `offsetof(AudioChannelLayout, mChannelDescriptions)` */
  const HeaderBytes: nat := 12
  /** `sizeof(AudioChannelDescription)` */
  const DescriptionBytes: nat := 20

  /** One channel description; its float coordinates are left out. */
  datatype Description = Description(channelLabel: uint32, flags: uint32)

  /** A layout as it sits in memory: the header fields and the description
      slots that memory holds. */
  datatype Layout = Layout(tag: uint32, bitmap: uint32, count: nat, slots: seq<Description>) {
    /** Every description the header announces is backed by memory. */
    predicate Backed() {
      count <= |slots|
    }
  }

  /** `AudioChannelLayout_length`: the bytes a layout occupies according to
      its own description count. The length determines the count. */
  function Length(l: Layout): (n: nat)
    ensures n >= HeaderBytes
    ensures (n - HeaderBytes) % DescriptionBytes == 0
    ensures (n - HeaderBytes) / DescriptionBytes == l.count
  {
    HeaderBytes + l.count * DescriptionBytes
  }

  /** Two layouts have the same length exactly when they announce the same
      number of descriptions. */
  lemma LengthDeterminesCount(a: Layout, b: Layout)
    ensures Length(a) == Length(b) <==> a.count == b.count
  {
  }

  /** An `AudioChannelLayoutX`: the bytes it allocated and the layout they
      hold. */
  datatype LayoutX = LayoutX(bytes: nat, layout: Layout) {
    /** `size()` */
    function Size(): nat {
      Length(layout)
    }
  }

  /** The tag of a layout described by its descriptions (zero). */
  const UseChannelDescriptions: uint32 := 0

  /** `create(n)`: a zero-filled allocation holding a header and `n`
      descriptions, with the count set to `n`. */
  function Create(n: nat): (x: LayoutX)
    ensures x.layout.count == n == |x.layout.slots|
    ensures x.bytes == x.Size() == HeaderBytes + n * DescriptionBytes
    ensures x.layout.tag == UseChannelDescriptions && x.layout.bitmap == 0
    ensures forall i :: 0 <= i < |x.layout.slots| ==> x.layout.slots[i] == Description(0, 0)
  {
    var bytes := HeaderBytes + n * DescriptionBytes;
    LayoutX(bytes, Layout(0, 0, n, seq(n, _ => Description(0, 0))))
  }

  // ---------------------------------------------------------------------
  // Standard layouts by channel count

  /** Core Audio layout tags keep the channel count in their low 16 bits. */
  function TagChannelCount(tag: uint32): nat
  {
    tag % 0x1_0000
  }

  const Mono: uint32 := 100 * 0x1_0000 + 1
  const Stereo: uint32 := 101 * 0x1_0000 + 2
  const Mpeg3_0A: uint32 := 113 * 0x1_0000 + 3
  const Mpeg4_0A: uint32 := 115 * 0x1_0000 + 4
  const Mpeg5_0A: uint32 := 117 * 0x1_0000 + 5
  const Mpeg5_1A: uint32 := 121 * 0x1_0000 + 6
  const Mpeg6_1A: uint32 := 125 * 0x1_0000 + 7
  const Mpeg7_1C: uint32 := 128 * 0x1_0000 + 8

  /** `CreateBasic`'s table, indexed by channel count minus one. */
  const BasicTags: seq<uint32> := [Mono, Stereo, Mpeg3_0A, Mpeg4_0A, Mpeg5_0A, Mpeg5_1A, Mpeg6_1A, Mpeg7_1C]

  /** `CreateBasic(n)`: a layout without descriptions whose tag is the
      standard one for `n` channels. The table covers 1 to 8 channels; the
      assertion bounds `n` above and the `n - 1` index bounds it below. */
  function CreateBasic(n: nat): (x: LayoutX)
    requires 1 <= n <= |BasicTags|
    ensures x.layout.count == 0 && x.layout.Backed()
    ensures x.bytes == x.Size() == HeaderBytes
    ensures x.layout.bitmap == 0 && x.layout.slots == []
    ensures x.layout.tag in BasicTags
    ensures TagChannelCount(x.layout.tag) == n
  {
    var x := Create(0);
    LayoutX(x.bytes, x.layout.(tag := BasicTags[n - 1]))
  }

  /** Different channel counts give different standard layouts, so the
      synthesised layout determines the channel count. */
  lemma CreateBasicInjective(a: nat, b: nat)
    requires 1 <= a <= |BasicTags| && 1 <= b <= |BasicTags|
    ensures CreateBasic(a) == CreateBasic(b) <==> a == b
    ensures CreateBasic(a).layout.tag == CreateBasic(b).layout.tag <==> a == b
  {
    assert TagChannelCount(CreateBasic(a).layout.tag) == a;
    assert TagChannelCount(CreateBasic(b).layout.tag) == b;
  }

  // ---------------------------------------------------------------------
  // Layouts from a channel map, and copies

  /** `FromChannelMap(map)`: one description per entry of the map, labelled
      in map order; the tag is what the channel-map helper of the program
      picks for the map, passed in as `mapTag`. */
  method FromChannelMap(channelMap: seq<uint32>, mapTag: uint32) returns (x: LayoutX)
    ensures x.layout.count == |channelMap| == |x.layout.slots|
    ensures x.bytes == x.Size()
    ensures x.layout.tag == mapTag && x.layout.bitmap == 0
    ensures forall i :: 0 <= i < |channelMap| ==> x.layout.slots[i].channelLabel == channelMap[i]
    ensures forall i :: 0 <= i < |channelMap| ==> x.layout.slots[i].flags == 0
  {
    x := Create(|channelMap|);
    x := x.(layout := x.layout.(tag := mapTag));
    var i := 0;
    while i < |channelMap|
      invariant 0 <= i <= |channelMap|
      invariant x.layout.count == |channelMap| == |x.layout.slots|
      invariant x.bytes == x.Size() && x.layout.tag == mapTag && x.layout.bitmap == 0
      invariant forall j :: 0 <= j < i ==> x.layout.slots[j].channelLabel == channelMap[j]
      invariant forall j :: 0 <= j < |channelMap| ==> x.layout.slots[j].flags == 0
    {
      var slots := x.layout.slots[i := x.layout.slots[i].(channelLabel := channelMap[i])];
      x := x.(layout := x.layout.(slots := slots));
      i := i + 1;
    }
  }

  /** `attach(src)`: allocate `AudioChannelLayout_length(src)` bytes and copy
      that many, i.e. the header and exactly the announced descriptions.
      Reading them needs them to be backed by memory. */
  function Attach(src: Layout): (x: LayoutX)
    requires src.Backed()
    ensures x.bytes == Length(src) == x.Size()
    ensures x.layout.tag == src.tag && x.layout.bitmap == src.bitmap && x.layout.count == src.count
    ensures x.layout.Backed() && |x.layout.slots| == src.count
    ensures forall i :: 0 <= i < src.count ==> x.layout.slots[i] == src.slots[i]
  {
    LayoutX(Length(src), Layout(src.tag, src.bitmap, src.count, src.slots[..src.count]))
  }

  /** Copying a copy changes nothing, and copying a freshly created or
      map-built layout (whose memory holds exactly its descriptions) gives
      an equal layout back. */
  lemma AttachRoundTrip(src: Layout)
    requires src.Backed()
    ensures Attach(Attach(src).layout) == Attach(src)
    ensures |src.slots| == src.count ==> Attach(src).layout == src
  {
    assert src.slots[..src.count][..src.count] == src.slots[..src.count];
    if |src.slots| == src.count {
      assert src.slots[..src.count] == src.slots;
    }
  }
}

=== FILE: property_support.dfy ===
/**
 The error discipline of the QuickTime component wrapper (`PropertySupport`
 and `ComponentX::OpenDefault` in qthelper.h). The QuickTime calls
 themselves are outside the model: each is represented by the status code
 it returned, and, for a size query, by the size it reported.
 */
module PropertySupport {
  import opened Base

  /** `_check(err, msg, klass, id)`: a non-zero status becomes an exception
      carrying the status, the call and the property. */
  function Check(err: int, call: string, klass: OSType, id: OSType): (r: Outcome)
    ensures r.Fail? <==> err != 0
    ensures r.Fail? ==> r.error == PropertyFailed(err, call, klass, id)
  {
    if err != 0 then Fail(PropertyFailed(err, call, klass, id)) else Pass
  }

  /** An opened component instance. */
  datatype Component = Component(instance: nat)

  /** `OpenDefault`: the default component of a type, or an exception when
      `OpenADefaultComponent` returned a non-zero status. */
  function OpenDefault(err: int, instance: nat, componentType: OSType, componentSubType: OSType)
    : (r: Result<Component>)
    ensures r.Err? <==> err != 0
    ensures r.Err? ==> r.error == ComponentOpenFailed(err, componentType, componentSubType)
    ensures r.Ok? ==> r.value.instance == instance
  {
    if err != 0 then Err(ComponentOpenFailed(err, componentType, componentSubType))
    else Ok(Component(instance))
  }

  /** What a vector-property read did: the number of elements of the result,
      whether the data itself was fetched, and the buffer size in bytes the
      fetch was told it could write. */
  datatype VectorRead = VectorRead(elements: nat, fetched: bool, declaredBytes: nat)

  /** `getVectorProperty<T>` as written, for `sizeof(T) == elementBytes`:
      query the size, make a vector of `size / sizeof(T)` elements, and fetch
      `size` bytes into it unless the size is zero. */
  function GetVectorProperty(elementBytes: nat, klass: OSType, id: OSType,
                             infoErr: int, size: nat, propErr: int): (r: Result<VectorRead>)
    requires elementBytes > 0
    ensures r.Err? <==> infoErr != 0 || (size != 0 && propErr != 0)
    ensures infoErr != 0 ==> r == Err(PropertyFailed(infoErr, "getPropertyInfo", klass, id))
    ensures infoErr == 0 && size != 0 && propErr != 0 ==>
              r == Err(PropertyFailed(propErr, "getProperty", klass, id))
    ensures r.Ok? ==> r.value.elements * elementBytes <= size < (r.value.elements + 1) * elementBytes
    ensures r.Ok? ==> (r.value.fetched <==> size != 0)
    ensures r.Ok? && r.value.fetched ==> r.value.declaredBytes == size
  {
    match Check(infoErr, "getPropertyInfo", klass, id)
    case Fail(e) => Err(e)
    case Pass =>
      var elements := size / elementBytes;
      if size == 0 then Ok(VectorRead(elements, false, 0))
      else
        match Check(propErr, "getProperty", klass, id)
        case Fail(e) => Err(e)
        case Pass => Ok(VectorRead(elements, true, size))
  }

  /** The buffer the fetch writes into holds `elements * sizeof(T)` bytes. */
  predicate FitsBuffer(elementBytes: nat, v: VectorRead)
  {
    v.fetched ==> 0 < v.elements && v.declaredBytes <= v.elements * elementBytes
  }

  /** As written, a reported size that is not a multiple of the element
      size lets the fetch write past the vector: 6 bytes of 4-byte elements
      make a one-element vector that is told it can take 6 bytes, and 2
      bytes make an empty vector whose first element is written. */
  lemma GetVectorPropertyOverrunsBuffer(klass: OSType, id: OSType)
    ensures GetVectorProperty(4, klass, id, 0, 6, 0) == Ok(VectorRead(1, true, 6))
    ensures !FitsBuffer(4, GetVectorProperty(4, klass, id, 0, 6, 0).value)
    ensures !FitsBuffer(4, GetVectorProperty(4, klass, id, 0, 2, 0).value)
  {
  }

  /** The read as evidently intended: fetch only into a non-empty vector,
      and tell the fetch the vector's own size in bytes. */
  function GetVectorPropertyBounded(elementBytes: nat, klass: OSType, id: OSType,
                                    infoErr: int, size: nat, propErr: int): (r: Result<VectorRead>)
    requires elementBytes > 0
    ensures r.Err? <==> infoErr != 0 || (size >= elementBytes && propErr != 0)
    ensures infoErr != 0 ==> r == Err(PropertyFailed(infoErr, "getPropertyInfo", klass, id))
    ensures infoErr == 0 && size >= elementBytes && propErr != 0 ==>
              r == Err(PropertyFailed(propErr, "getProperty", klass, id))
    ensures r.Ok? ==> r.value.elements * elementBytes <= size < (r.value.elements + 1) * elementBytes
    ensures r.Ok? ==> FitsBuffer(elementBytes, r.value)
    ensures r.Ok? ==> (r.value.fetched <==> r.value.elements > 0)
  {
    match Check(infoErr, "getPropertyInfo", klass, id)
    case Fail(e) => Err(e)
    case Pass =>
      var elements := size / elementBytes;
      if elements == 0 then Ok(VectorRead(0, false, 0))
      else
        match Check(propErr, "getProperty", klass, id)
        case Fail(e) => Err(e)
        case Pass => Ok(VectorRead(elements, true, elements * elementBytes))
  }

  /** Where every reported size is a whole number of elements, the bounded
      read does exactly what the written one does. */
  lemma BoundedAgreesOnWholeElements(elementBytes: nat, klass: OSType, id: OSType,
                                     infoErr: int, size: nat, propErr: int)
    requires elementBytes > 0 && size % elementBytes == 0
    ensures GetVectorPropertyBounded(elementBytes, klass, id, infoErr, size, propErr) ==
            GetVectorProperty(elementBytes, klass, id, infoErr, size, propErr)
  {
  }
}

=== FILE: sndfile_module.dfy ===
/**
 Run-time binding of libsndfile (`LibSndfileModule` in libsndfilesrc.cpp).
 The library is loaded by path; then a fixed list of entry points is
 looked up one after another. The first null lookup unloads the library
 again, so a module that reports itself loaded has every entry point.
 */
module SndfileModule {
  import opened Base

  /** An entry-point address; 0 is the null pointer. */
  type Ptr = nat

  /** The lookups in the order the constructor performs them; `sf_close`
      is looked up twice, first and last, as written. */
  const Symbols: seq<string> := [
    "sf_version_string", "sf_open_virtual", "sf_close", "sf_strerror",
    "sf_command", "sf_seek", "sf_readf_int", "sf_readf_float",
    "sf_readf_double", "sf_close"
  ]

  /** The dynamic library after the load attempt: either it did not load,
      or it exports some names. */
  datatype Library = NotLoaded | Loaded(exports: map<string, Ptr>)

  /** A symbol lookup: the exported address, or null. */
  function Fetch(exports: map<string, Ptr>, name: string): Ptr
  {
    if name in exports then exports[name] else 0
  }

  /** The outcome of a run of lookups: the table when every lookup gave a
      non-null address, and the names that were looked up. */
  datatype Resolution = Resolution(table: Option<map<string, Ptr>>, attempted: seq<string>)

  /** Look the names up in order and stop at the first null. */
  function Resolve(names: seq<string>, exports: map<string, Ptr>): (r: Resolution)
    // the lookups happen in order and form a prefix of the list
    ensures |r.attempted| <= |names| && r.attempted == names[..|r.attempted|]
    // all or nothing
    ensures r.table.Some? <==> forall i :: 0 <= i < |names| ==> Fetch(exports, names[i]) != 0
    ensures r.table.Some? ==> r.attempted == names
    ensures r.table.Some? ==>
              forall i :: 0 <= i < |names| ==>
                names[i] in r.table.value && r.table.value[names[i]] == Fetch(exports, names[i])
    // a failed run stops at the first null lookup
    ensures r.table.None? ==>
              && |r.attempted| > 0
              && Fetch(exports, r.attempted[|r.attempted| - 1]) == 0
              && forall i :: 0 <= i < |r.attempted| - 1 ==> Fetch(exports, r.attempted[i]) != 0
    decreases |names|
  {
    if |names| == 0 then Resolution(Some(map[]), [])
    else
      var p := Fetch(exports, names[0]);
      if p == 0 then Resolution(None, [names[0]])
      else
        var rest := Resolve(names[1..], exports);
        var table := if rest.table.None? then None else Some(rest.table.value[names[0] := p]);
        Resolution(table, [names[0]] + rest.attempted)
  }

  /** A module is either inert or bound to a full table of entry points. */
  datatype Module = Inert | Bound(table: map<string, Ptr>) {
    /** `loaded()` */
    predicate IsLoaded() {
      Bound?
    }
  }

  /** Every required entry point is present and non-null. */
  predicate Complete(table: map<string, Ptr>)
  {
    forall i :: 0 <= i < |Symbols| ==> Symbols[i] in table && table[Symbols[i]] != 0
  }

  /** The module together with the lookups its construction performed. */
  datatype Binding = Binding(state: Module, attempted: seq<string>)

  /** The `LibSndfileModule` constructor. */
  function Bind(lib: Library): (r: Binding)
    // a library that did not load is not searched
    ensures lib.NotLoaded? ==> r.state.Inert? && r.attempted == []
    // loaded exactly when every lookup succeeds
    ensures r.state.IsLoaded() <==>
              lib.Loaded? && forall i :: 0 <= i < |Symbols| ==> Fetch(lib.exports, Symbols[i]) != 0
    // loaded implies every entry point is non-null, and is the library's
    ensures r.state.IsLoaded() ==> Complete(r.state.table)
    ensures r.state.IsLoaded() ==>
              forall i :: 0 <= i < |Symbols| ==>
                r.state.table[Symbols[i]] == Fetch(lib.exports, Symbols[i])
    // lookups stop at the first null one: every earlier one was non-null
    ensures lib.Loaded? && r.state.Inert? ==>
              && 0 < |r.attempted| <= |Symbols| && r.attempted == Symbols[..|r.attempted|]
              && Fetch(lib.exports, r.attempted[|r.attempted| - 1]) == 0
              && forall i :: 0 <= i < |r.attempted| - 1 ==> Fetch(lib.exports, r.attempted[i]) != 0
  {
    match lib
    case NotLoaded => Binding(Inert, [])
    case Loaded(exports) =>
      var res := Resolve(Symbols, exports);
      if res.table.Some? then Binding(Bound(res.table.value), res.attempted)
      else Binding(Inert, res.attempted)
  }

  /** The entry point of a loaded module under `name`. */
  function EntryPoint(m: Module, name: string): (p: Ptr)
    requires m.IsLoaded() && Complete(m.table)
    requires name in Symbols
    ensures p != 0
  {
    assert exists i :: 0 <= i < |Symbols| && Symbols[i] == name;
    m.table[name]
  }
}

=== FILE: sndfile_source.dfy ===
/**
 The libsndfile adapter (`LibSndfileSource` in libsndfilesrc.cpp): what its
 constructor decides from the answers of a bound libsndfile module, and its
 seek and position error handling.
 */
module SndfileSource {
  import opened Base
  import opened ChannelMap
  import opened SndfileModule

  // ---------------------------------------------------------------------
  // libsndfile format codes

  /** The bits of `SF_INFO.format` holding the major (container) type. */
  const TypeMask: bv32 := 0x0FFF_0000
  /** The bits of `SF_INFO.format` holding the subtype (sample encoding). */
  const SubMask: bv32 := 0x0000_FFFF

  /** `format & SF_FORMAT_TYPEMASK` */
  function MajorTypeOf(format: bv32): bv32
  {
    format & TypeMask
  }

  /** `format & SF_FORMAT_SUBMASK` */
  function SubtypeOf(format: bv32): bv32
  {
    format & SubMask
  }

  const PcmS8: bv32 := 0x0001
  const Pcm16: bv32 := 0x0002
  const Pcm24: bv32 := 0x0003
  const Pcm32: bv32 := 0x0004
  const PcmU8: bv32 := 0x0005
  const Float: bv32 := 0x0006
  const Double: bv32 := 0x0007
  const Alac16: bv32 := 0x0070
  const Alac20: bv32 := 0x0071
  const Alac24: bv32 := 0x0072
  const Alac32: bv32 := 0x0073

  /** Core Audio sample-kind flags. */
  const FlagIsFloat: bv32 := 0x1
  const FlagIsSignedInteger: bv32 := 0x4

  // ---------------------------------------------------------------------
  // The subformat table

  /** One row of the constructor's `mapping` table. */
  datatype FormatEntry = FormatEntry(subtype: bv32, bits: nat, flags: bv32)

  /** The table as written, ending in the all-zero sentinel row. 8-bit
      unsigned PCM is tagged as a signed integer, as written. */
  const Mapping: seq<FormatEntry> := [
    FormatEntry(PcmS8, 8, FlagIsSignedInteger),
    FormatEntry(Pcm16, 16, FlagIsSignedInteger),
    FormatEntry(Pcm24, 24, FlagIsSignedInteger),
    FormatEntry(Pcm32, 32, FlagIsSignedInteger),
    FormatEntry(PcmU8, 8, FlagIsSignedInteger),
    FormatEntry(Float, 32, FlagIsFloat),
    FormatEntry(Double, 64, FlagIsFloat),
    FormatEntry(Alac16, 16, FlagIsSignedInteger),
    FormatEntry(Alac20, 20, FlagIsSignedInteger),
    FormatEntry(Alac24, 24, FlagIsSignedInteger),
    FormatEntry(Alac32, 32, FlagIsSignedInteger),
    FormatEntry(0, 0, 0)
  ]

  /** The rows before the sentinel. */
  const Supported: seq<FormatEntry> := Mapping[..|Mapping| - 1]

  /** The sentinel is the only row with subtype 0, and no subtype is listed
      twice, so the first match of a scan is the only match. */
  lemma MappingShape()
    ensures Mapping[|Mapping| - 1] == FormatEntry(0, 0, 0)
    ensures forall i :: 0 <= i < |Supported| ==> Supported[i].subtype != 0
    ensures forall i, j :: 0 <= i < j < |Supported| ==> Supported[i].subtype != Supported[j].subtype
  {
  }

  /** The sentinel-terminated scan from row `p`: the first row whose subtype
      is the searched one, or a failure on reaching the sentinel. */
  function ScanFrom(p: nat, subformat: bv32): (r: Result<FormatEntry>)
    requires p < |Mapping|
    ensures r.Ok? ==> r.value.subtype == subformat && r.value in Supported
    ensures r.Err? ==> r.error == UnsupportedSubformat
    ensures r.Err? <==> forall j :: p <= j < |Supported| ==> Supported[j].subtype != subformat
    decreases |Mapping| - p
  {
    if Mapping[p].subtype == 0 then Err(UnsupportedSubformat)
    else if Mapping[p].subtype == subformat then Ok(Mapping[p])
    else ScanFrom(p + 1, subformat)
  }

  /** The lookup of `info.format & SF_FORMAT_SUBMASK` in the table. */
  function LookupSubformat(subformat: bv32): (r: Result<FormatEntry>)
    ensures r.Ok? ==> r.value.subtype == subformat && r.value in Supported
    ensures r.Err? ==> r.error == UnsupportedSubformat
    ensures r.Err? <==> forall e :: e in Supported ==> e.subtype != subformat
  {
    ScanFrom(0, subformat)
  }

  /** `pack_bits`: integers are packed to 32 bits, floats keep their width. */
  function PackBits(e: FormatEntry): nat
  {
    if e.flags == FlagIsSignedInteger then 32 else e.bits
  }

  /** For every row, the packed width holds the native width, every integer
      kind packs to 32 bits and every float kind keeps its own width. */
  lemma PackBitsCoversNativeBits(e: FormatEntry)
    requires e in Supported
    ensures e.bits <= PackBits(e)
    ensures e.flags == FlagIsSignedInteger ==> PackBits(e) == 32
    ensures e.flags != FlagIsSignedInteger ==> PackBits(e) == e.bits && e.flags == FlagIsFloat
    ensures PackBits(e) == 32 || PackBits(e) == 64
  {
  }

  /** 8-bit unsigned PCM is read as a signed integer kind, as written. */
  lemma UnsignedEightBitIsTaggedSigned()
    ensures LookupSubformat(PcmU8) == Ok(FormatEntry(PcmU8, 8, FlagIsSignedInteger))
  {
  }

  // ---------------------------------------------------------------------
  // The read entry point

  datatype ReadEntry = ReadfInt | ReadfFloat | ReadfDouble

  /** The name under which the module binds each reader. */
  function ReaderSymbol(e: ReadEntry): (name: string)
    ensures name in Symbols
  {
    match e
    case ReadfInt => "sf_readf_int"
    case ReadfFloat => "sf_readf_float"
    case ReadfDouble => "sf_readf_double"
  }

  /** The width in bits of the samples each reader writes. */
  function ReaderWidth(e: ReadEntry): nat
  {
    match e
    case ReadfInt => 32
    case ReadfFloat => 32
    case ReadfDouble => 64
  }

  /** The constructor's one-time choice of reader, from the descriptor's
      flags and packed width. */
  function ChooseReadEntry(flags: bv32, packBits: nat): (r: ReadEntry)
    ensures r == ReadfInt <==> flags & FlagIsSignedInteger != 0
    ensures r == ReadfFloat <==> flags & FlagIsSignedInteger == 0 && packBits == 32
  {
    if flags & FlagIsSignedInteger != 0 then ReadfInt
    else if packBits == 32 then ReadfFloat
    else ReadfDouble
  }

  /** For every row of the table, the chosen reader writes samples exactly
      as wide as the packed width. */
  lemma ReaderMatchesPacking(e: FormatEntry)
    requires e in Supported
    ensures ReaderWidth(ChooseReadEntry(e.flags, PackBits(e))) == PackBits(e)
    ensures ChooseReadEntry(e.flags, PackBits(e)) == ReadfInt <==> e.flags == FlagIsSignedInteger
  {
  }

  // ---------------------------------------------------------------------
  // The format name and the tag reader

  /** One answer to `SFC_GET_FORMAT_MAJOR`. */
  datatype MajorFormat = MajorFormat(format: bv32, extension: string)

  /** The search through the major formats from index `i`: the index of
      the first one whose format is `t`, or `|majors|` when there is none. */
  function FirstMajorFrom(majors: seq<MajorFormat>, i: nat, t: bv32): (k: nat)
    requires i <= |majors|
    ensures i <= k <= |majors|
    ensures forall j :: i <= j < k ==> majors[j].format != t
    ensures k < |majors| ==> majors[k].format == t
    decreases |majors| - i
  {
    if i == |majors| then |majors|
    else if majors[i].format == t then i
    else FirstMajorFrom(majors, i + 1, t)
  }

  /** The constructor's format name for the major type `t`: the extension of
      the first matching major format, and empty when none matches. */
  function FormatName(majors: seq<MajorFormat>, t: bv32): (name: string)
    ensures (forall j :: 0 <= j < |majors| ==> majors[j].format != t) ==> name == ""
    ensures FirstMajorFrom(majors, 0, t) < |majors| ==>
              name == majors[FirstMajorFrom(majors, 0, t)].extension
  {
    var k := FirstMajorFrom(majors, 0, t);
    if k < |majors| then majors[k].extension else ""
  }

  datatype TagRoutine = AiffId3 | CafChunks | NoTags

  /** Which tag reader runs, from the format name. */
  function TagRoutineFor(name: string): (r: TagRoutine)
    ensures r == AiffId3 <==> name == "aiff"
    ensures r == CafChunks <==> name == "caf"
  {
    if name == "aiff" then AiffId3 else if name == "caf" then CafChunks else NoTags
  }

  type TagMap = map<uint32, string>

  /** The tags after the chosen reader ran, given what each reader would
      produce (`None` when it throws). The ID3 reader's failure is
      swallowed; the CAF reader's failure ends construction. */
  function FetchTags(routine: TagRoutine, aiff: Option<TagMap>, caf: Option<TagMap>): (r: Result<TagMap>)
    ensures r.Err? <==> routine == CafChunks && caf.None?
    ensures r.Err? ==> r.error == TagFetchFailed
    ensures routine == NoTags ==> r == Ok(map[])
    ensures routine == AiffId3 ==> r == Ok(if aiff.Some? then aiff.value else map[])
    ensures routine == CafChunks && caf.Some? ==> r == Ok(caf.value)
  {
    match routine
    case AiffId3 => if aiff.Some? then Ok(aiff.value) else Ok(map[])
    case CafChunks => if caf.Some? then Ok(caf.value) else Err(TagFetchFailed)
    case NoTags => Ok(map[])
  }

  // ---------------------------------------------------------------------
  // The constructor

  /** What `sf_open_virtual` fills into `SF_INFO`. */
  datatype SfInfo = SfInfo(frames: int64, sampleRate: int, channels: nat, format: bv32)

  /** The answers the library and the tag readers give the constructor. */
  datatype SndfileBackend = SndfileBackend(
    info: Option<SfInfo>,                      // None: sf_open_virtual returned null
    majors: seq<MajorFormat>,                    // SFC_GET_FORMAT_MAJOR for 0 .. count-1
    channelMap: Option<seq<NativeChannel>>,      // None: SFC_GET_CHANNEL_MAP_INFO gave SF_FALSE
    aiffTags: Option<TagMap>,                    // the AIFF ID3 reader's tags; None: it threw
    cafTags: Option<TagMap>)                     // the CAF reader's tags; None: it threw

  /** The sample format descriptor built for the source. */
  datatype SampleFormat = SampleFormat(sampleRate: int, channels: nat, bits: nat, packBits: nat, flags: bv32)

  /** The state a successfully constructed source keeps. */
  datatype Source = Source(
    length: int64,
    formatName: string,
    format: SampleFormat,
    readf: ReadEntry,
    readfEntry: Ptr,
    chanmap: seq<uint32>,
    tags: TagMap)

  /** The library fills the channel-map buffer, sized to the channel count,
      exactly. */
  predicate WellFormedBackend(b: SndfileBackend)
  {
    b.info.Some? && b.channelMap.Some? ==> |b.channelMap.value| == b.info.value.channels
  }

  /** The descriptor built from `SF_INFO` and the table row, with the
      packed width of `pack_bits`. */
  function DescribeFormat(info: SfInfo, entry: FormatEntry): (f: SampleFormat)
    requires entry in Supported
    ensures f.sampleRate == info.sampleRate && f.channels == info.channels
    ensures f.bits == entry.bits && f.flags == entry.flags
    ensures f.bits <= f.packBits
    ensures f.flags == FlagIsSignedInteger ==> f.packBits == 32
    ensures f.flags != FlagIsSignedInteger ==> f.packBits == f.bits
    ensures ReaderWidth(ChooseReadEntry(f.flags, f.packBits)) == f.packBits
    ensures ChooseReadEntry(f.flags, f.packBits) == ReadfInt <==> f.flags == FlagIsSignedInteger
  {
    PackBitsCoversNativeBits(entry);
    ReaderMatchesPacking(entry);
    SampleFormat(info.sampleRate, info.channels, entry.bits, PackBits(entry), entry.flags)
  }

  /** The channel map kept by the source: empty when the library has none,
      otherwise every position translated, in order. */
  function ReadChannelMap(reply: Option<seq<NativeChannel>>): (r: Result<seq<uint32>>)
    ensures reply.None? ==> r == Ok([])
    ensures reply.Some? ==> r == ConvertChannelMap(reply.value)
    ensures r.Err? ==> r.error.UnknownChannel?
    ensures r.Ok? && reply.Some? ==>
              && |r.value| == |reply.value|
              && forall i :: 0 <= i < |r.value| ==> ConvertChanmap(reply.value[i]) == Ok(r.value[i])
  {
    if reply.None? then Ok([]) else ConvertChannelMap(reply.value)
  }

  /** The source state once every step of the constructor has succeeded:
      the reader is the one for the descriptor, bound from the module. */
  function Assemble(m: Module, info: SfInfo, name: string, entry: FormatEntry,
                    chanmap: seq<uint32>, tags: TagMap): (s: Source)
    requires m.IsLoaded() && Complete(m.table)
    requires entry in Supported && entry.subtype == SubtypeOf(info.format)
    ensures s.length == info.frames && s.formatName == name
    ensures s.chanmap == chanmap && s.tags == tags
    ensures s.format.sampleRate == info.sampleRate && s.format.channels == info.channels
    ensures FormatEntry(SubtypeOf(info.format), s.format.bits, s.format.flags) in Supported
    ensures s.format.bits <= s.format.packBits
    ensures s.format.flags == FlagIsSignedInteger ==> s.format.packBits == 32
    ensures s.format.flags != FlagIsSignedInteger ==> s.format.packBits == s.format.bits
    ensures s.readf == ReadfInt <==> s.format.flags == FlagIsSignedInteger
    ensures ReaderWidth(s.readf) == s.format.packBits
    ensures s.readfEntry == m.table[ReaderSymbol(s.readf)] && s.readfEntry != 0
  {
    assert entry == FormatEntry(SubtypeOf(info.format), entry.bits, entry.flags);
    var format := DescribeFormat(info, entry);
    var readf := ChooseReadEntry(format.flags, format.packBits);
    Source(info.frames, name, format, readf, EntryPoint(m, ReaderSymbol(readf)), chanmap, tags)
  }

  /** The `LibSndfileSource` constructor against a loaded module. */
  function Open(m: Module, b: SndfileBackend): (r: Result<Source>)
    requires m.IsLoaded() && Complete(m.table)
    requires WellFormedBackend(b)
    // failures, in the order the constructor meets them
    ensures b.info.None? ==> r == Err(OpenFailed)
    ensures b.info.Some? && LookupSubformat(SubtypeOf(b.info.value.format)).Err? ==>
              r == Err(UnsupportedSubformat)
    ensures b.info.Some? && LookupSubformat(SubtypeOf(b.info.value.format)).Ok? &&
            ReadChannelMap(b.channelMap).Err? ==>
              r == Err(ReadChannelMap(b.channelMap).error)
    ensures r.Err? ==>
              || r.error == OpenFailed
              || r.error == UnsupportedSubformat
              || r.error.UnknownChannel?
              || (FormatName(b.majors, MajorTypeOf(b.info.value.format)) == "caf" && b.cafTags.None? &&
                  r.error == TagFetchFailed)
    // construction returns exactly when every step passes; only the CAF
    // reader's failure can end it, and the ID3 reader's never does
    ensures r.Ok? <==>
              && b.info.Some?
              && LookupSubformat(SubtypeOf(b.info.value.format)).Ok?
              && ReadChannelMap(b.channelMap).Ok?
              && (FormatName(b.majors, MajorTypeOf(b.info.value.format)) == "caf" ==> b.cafTags.Some?)
    // after every earlier step passed, a failing CAF reader's exception is
    // the one that ends construction
    ensures && b.info.Some?
            && LookupSubformat(SubtypeOf(b.info.value.format)).Ok?
            && ReadChannelMap(b.channelMap).Ok?
            && FormatName(b.majors, MajorTypeOf(b.info.value.format)) == "caf"
            && b.cafTags.None?
            ==> r == Err(TagFetchFailed)
    // a successful construction
    ensures r.Ok? ==> b.info.Some? && r.value.length == b.info.value.frames
    ensures r.Ok? ==> r.value.formatName == FormatName(b.majors, MajorTypeOf(b.info.value.format))
    ensures r.Ok? ==>
              var f := r.value.format;
              && f.sampleRate == b.info.value.sampleRate
              && f.channels == b.info.value.channels
              && FormatEntry(SubtypeOf(b.info.value.format), f.bits, f.flags) in Supported
              && f.bits <= f.packBits
              && (f.flags == FlagIsSignedInteger ==> f.packBits == 32)
              && (f.flags != FlagIsSignedInteger ==> f.packBits == f.bits)
    ensures r.Ok? ==>
              var s := r.value;
              && (s.readf == ReadfInt <==> s.format.flags == FlagIsSignedInteger)
              && ReaderWidth(s.readf) == s.format.packBits
              && s.readfEntry == m.table[ReaderSymbol(s.readf)] && s.readfEntry != 0
    ensures r.Ok? && b.channelMap.None? ==> r.value.chanmap == []
    ensures r.Ok? && b.channelMap.Some? ==>
              && |r.value.chanmap| == b.info.value.channels
              && ConvertChannelMap(b.channelMap.value) == Ok(r.value.chanmap)
    ensures r.Ok? && r.value.formatName != "aiff" && r.value.formatName != "caf" ==>
              r.value.tags == map[]
    ensures r.Ok? && r.value.formatName == "aiff" ==>
              r.value.tags == if b.aiffTags.Some? then b.aiffTags.value else map[]
    ensures r.Ok? && r.value.formatName == "caf" ==> b.cafTags == Some(r.value.tags)
  {
    if b.info.None? then Err(OpenFailed)
    else
      var info := b.info.value;
      var name := FormatName(b.majors, MajorTypeOf(info.format));
      var lookup := LookupSubformat(SubtypeOf(info.format));
      var chanmap := ReadChannelMap(b.channelMap);
      var tags := FetchTags(TagRoutineFor(name), b.aiffTags, b.cafTags);
      if lookup.Err? then Err(lookup.error)
      else if chanmap.Err? then Err(chanmap.error)
      else if tags.Err? then Err(tags.error)
      else Ok(Assemble(m, info, name, lookup.value, chanmap.value, tags.value))
  }

  /** A 16-bit signed PCM stream is read through `sf_readf_int`, described
      as 16 bits packed into 32, signed. */
  lemma SixteenBitPcmReadsIntegers(m: Module, b: SndfileBackend)
    requires m.IsLoaded() && Complete(m.table)
    requires b.info.Some? && SubtypeOf(b.info.value.format) == Pcm16
    requires b.channelMap.None? && b.cafTags.Some?
    ensures Open(m, b).Ok?
    ensures Open(m, b).value.readf == ReadfInt
    ensures Open(m, b).value.format.bits == 16
    ensures Open(m, b).value.format.packBits == 32
    ensures Open(m, b).value.format.flags == FlagIsSignedInteger
  {
    assert LookupSubformat(Pcm16) == Ok(FormatEntry(Pcm16, 16, FlagIsSignedInteger));
  }

  /** A container whose major type is not among the listed major formats
      gets the empty name and no tags, and that is not a failure. */
  lemma UnlistedMajorFormatFetchesNoTags(m: Module, b: SndfileBackend)
    requires m.IsLoaded() && Complete(m.table)
    requires WellFormedBackend(b)
    requires b.info.Some?
    requires forall j :: 0 <= j < |b.majors| ==> b.majors[j].format != MajorTypeOf(b.info.value.format)
    ensures Open(m, b).Ok? ==> Open(m, b).value.formatName == "" && Open(m, b).value.tags == map[]
    ensures Open(m, b).Ok? <==>
              && LookupSubformat(SubtypeOf(b.info.value.format)).Ok?
              && (b.channelMap.Some? ==> ConvertChannelMap(b.channelMap.value).Ok?)
  {
  }

  // ---------------------------------------------------------------------
  // Seeking

  /** `seekTo`, given what `sf_seek(handle, count, SEEK_SET)` returned. */
  function SeekTo(seekResult: int64): (r: Outcome)
    ensures r.Fail? <==> seekResult == -1
    ensures r.Fail? ==> r.error == SeekFailed
  {
    if seekResult == -1 then Fail(SeekFailed) else Pass
  }

  /** `getPosition`, given what `sf_seek(handle, 0, SEEK_CUR)` returned. */
  function GetPosition(seekResult: int64): (r: Result<int64>)
    ensures r.Err? <==> seekResult == -1
    ensures r.Err? ==> r.error == SeekFailed
    ensures r.Ok? ==> r.value == seekResult
  {
    if seekResult == -1 then Err(SeekFailed) else Ok(seekResult)
  }

  /** An idealised frame-addressed stream behind `sf_seek`: an absolute seek
      inside the stream moves there and returns the new position, any
      other fails with -1 and leaves the position alone; a relative seek by
      0 reports the position. */
  datatype Stream = Stream(position: int64, frames: int64)

  /** `sf_seek(handle, target, SEEK_SET)`: the stream afterwards and the
      value returned. */
  function SeekSet(s: Stream, target: int64): (Stream, int64)
  {
    if 0 <= target <= s.frames then (s.(position := target), target) else (s, -1)
  }

  /** `sf_seek(handle, 0, SEEK_CUR)`: the stream is unchanged and the value
      returned is its position. */
  function SeekCur(s: Stream): (Stream, int64)
  {
    (s, s.position)
  }

  /** Against such a stream, `seekTo(p)` followed by `getPosition()` gives
      `p` back when `p` is a frame of the stream. A target outside it makes
      `seekTo` fail and leaves the answer of a later `getPosition()` as it
      was before the seek. */
  lemma SeekThenPositionRoundTrip(s: Stream, p: int64)
    ensures 0 <= p <= s.frames ==> SeekTo(SeekSet(s, p).1) == Pass
    ensures 0 <= p <= s.frames ==> GetPosition(SeekCur(SeekSet(s, p).0).1) == Ok(p)
    ensures !(0 <= p <= s.frames) ==> SeekTo(SeekSet(s, p).1) == Fail(SeekFailed)
    ensures !(0 <= p <= s.frames) ==>
              GetPosition(SeekCur(SeekSet(s, p).0).1) == GetPosition(SeekCur(s).1)
  {
  }

  // ---------------------------------------------------------------------
  // Which tag reader the constructor consults

  /** The constructor consults only the tag reader its format name selects:
      what the CAF reader would produce matters only for "caf", and what the
      ID3 reader would produce matters only for "aiff". */
  lemma OpenIgnoresUnselectedReader(m: Module, b: SndfileBackend, aiff: Option<TagMap>, caf: Option<TagMap>)
    requires m.IsLoaded() && Complete(m.table)
    requires WellFormedBackend(b)
    ensures b.info.Some? && FormatName(b.majors, MajorTypeOf(b.info.value.format)) != "caf" ==>
              Open(m, b) == Open(m, b.(cafTags := caf))
    ensures b.info.Some? && FormatName(b.majors, MajorTypeOf(b.info.value.format)) != "aiff" ==>
              Open(m, b) == Open(m, b.(aiffTags := aiff))
    ensures b.info.None? ==> Open(m, b) == Open(m, b.(aiffTags := aiff, cafTags := caf))
  {
  }
}
